=== FILE: README.md ===
# Forge My Hero: gallery, profile upload and login gate, in Dafny

This project models the logic of the "Forge My Hero" character-sheet web
application that can be separated from the browser, the database and the file
system, and proves properties of that model:

- **Gallery staging widget** (`public/Script/gallery.js`): the ordered list of
  staged portraits (`existing` images from the server, `file` images the user
  picked), the fail-soft initialiser, the derived view (grid state class
  `is-empty`/`count-k`, per-cell layout class, hidden-field value, remove-button
  state), the image-type filter on picked files, removal by index from the
  modal, and the modal's open/close rules. The widget is an immutable `Widget`
  value and every handler is a transition (`Gallery.Step`).
- **Profile picture upload** (`server/controllers/profileController.js`): the
  parser for `data:image/<subtype>;base64,<payload>` (exactly the accepted
  language of the route's regular expression, which is narrower than the data
  URLs of RFC 2397: no parameters, base64 only, `image/` only), the inclusive
  5 MiB ceiling on the decoded length, the extension and public path, the login
  check and the route's input checks and updates.
- **Registration and login** (`server/controllers/authController.js`): the
  ordered, first-failure-wins registration checks, lower-cased email for both
  lookup and storage, the identical reply for unknown user and wrong password,
  the placeholder profile image, and the one-shot use of `redirectTo`.
- **Login gate** (`server/middleware/auth.js`): `ensureLoggedIn`, and in
  `LoginFlow` its combination with login: the most recently requested
  protected URL, requested while logged out, is the destination of the next
  successful login and only of it (a later gated request overwrites it).

Files: `options.dfy` (optional values), `js_text.dfy` (JavaScript string
behaviour the code relies on), `gallery.dfy`, `users.dfy` (user collection and
session records), `auth_middleware.dfy`, `auth_controller.dfy`,
`profile_controller.dfy`, `login_flow.dfy`.

Collaborators that the code calls but that are not part of this model are parameters:
`decodeAndParse` stands for `JSON.parse(decodeURIComponent(text))` (None when
either throws), `decode` for `Buffer.from(payload, 'base64')`, `now` for
`Date.now()`, `hash`/`compare` for bcrypt, `newId` for the id the database
assigns. The user collection is a sequence of records, and `findOne`/`findById` return the
first match. The file write is returned as a value (`FileWrite`) instead of performed.

## Model

| member | source | states |
|---|---|---|
| `Gallery.Init` | public/Script/gallery.js:14-24 | An absent or empty attribute, a decode/parse failure and a non-array result all give the empty list; an array gives one `existing` item per element, in order |
| `Gallery.ReloadRestoresSources` | public/Script/gallery.js:14-30 | Initialising from text whose parse is the hidden field's value restores the same sources in the same order, all as existing images |
| `Gallery.Sources` | public/Script/gallery.js:26-30 | The field's array has one entry per staged item (also beyond the fourth), the i-th being the i-th item's `src` |
| `Gallery.Render` | public/Script/gallery.js:43-88 | Exactly one grid state: `is-empty` iff nothing is staged, else `count-k` with k = min(n, 4); only the first four items are drawn, in order; field = all sources; remove button disabled iff the list is empty |
| `Gallery.ThreeImageLayout` | public/Script/gallery.js:62-67 | With three images cells 0 and 1 are `three-img-top` and cell 2 is `three-img-bottom` |
| `Gallery.UniformLayout` | public/Script/gallery.js:62-67 | With 1, 2 or at least 4 images every drawn cell has the same class |
| `Gallery.LayoutClassByCount` | public/Script/gallery.js:62-67 | One image is drawn as `one-img`, two as `two-img`, and from four images on each of the four drawn cells is `four-img` |
| `Gallery.CellClassIdentifiesCount` | public/Script/gallery.js:62-67 | A cell's layout class determines how many cells are drawn |
| `Gallery.AcceptImages` | public/Script/gallery.js:90-93 | Only files whose type starts with `image/` are read, each image as many times as it was picked |
| `Gallery.RemoveAt` | public/Script/gallery.js:124-125 | An in-range index deletes exactly that item, keeping the others in order (multiset minus that item); out of range changes nothing |
| `Gallery.OpenModal` | public/Script/gallery.js:104-109 | Opening with an empty list closes the modal; otherwise it shows every staged source |
| `Gallery.Setup` | public/Script/gallery.js:165-182 | After setup the modal is closed, the list is the initial list and the view is its render |
| `Gallery.Step` | public/Script/gallery.js:157-177 | An enabled remove button opens the modal over the current list and a disabled one does nothing; close control, backdrop and Escape while open close the modal; other keys, Escape while closed and a remove on no shown thumbnail change nothing; no modal control changes the list or the grid |
| `Gallery.StepPreservesConsistency` | public/Script/gallery.js:90-179 | Every handler keeps the view equal to the render of the list and an open modal showing a non-empty prefix of the sources; hence the remove button is disabled iff the list is empty after every event |
| `Gallery.FileReadAppends` | public/Script/gallery.js:94-98 | A completed read appends one `file` item holding its data URL at the end and changes no earlier item |
| `Gallery.ThumbRemoveDeletesShownItem` | public/Script/gallery.js:111-128 | A modal remove button deletes the item its thumbnail shows; removing the last one closes the modal, disables the button and empties the grid |
| `Gallery.RunPreservesConsistency` | public/Script/gallery.js:43-88 | Any sequence of events keeps the widget consistent |
| `Gallery.ReadsAppendInCompletionOrder` | public/Script/gallery.js:94-98 | Reads completing in some order append their items in exactly that order after the current list |
| `Gallery.PickedImagesAppendOnce` | public/Script/gallery.js:90-100 | In any completion order a pick adds one `file` item per accepted image, all images, after the untouched earlier items |
| `JsText.Utf16Length` | server/controllers/authController.js:52 | `length` is the number of UTF-16 code units: the character count plus the number of astral characters, so between the character count and twice it |
| `JsText.ToLowerCase` | server/controllers/authController.js:60 | Same length, no upper-case ASCII letter left, other characters unchanged, upper-case letters mapped to their lower-case |
| `JsText.LowerIdempotent` | server/controllers/authController.js:73 | Lower-casing the stored (already lower-case) email leaves it unchanged |
| `JsText.SplitSecond` | server/controllers/profileController.js:35 | `split(sep)[1]` is undefined iff `sep` does not occur; otherwise it is the text after the first `sep` up to the next `sep` or the end |
| `JsText.SplitSecondOfPair` | server/controllers/profileController.js:35 | For `a/b` with no `/` in a or b the second field is b |
| `JsText.Decimal` | server/controllers/profileController.js:36 | The timestamp's text is a non-empty string of digits without a leading zero |
| `JsText.DecimalRoundTrip` | server/controllers/profileController.js:36 | Reading the digits back gives the timestamp |
| `JsText.DecimalInjective` | server/controllers/profileController.js:36 | Different timestamps have different texts |
| `Users.FindFirst` | server/controllers/authController.js:60 | The lookup returns the first matching record, and None iff no record matches |
| `Users.FindAppended` | server/controllers/authController.js:60-75 | A user created under an unused email is the one the email lookup then finds |
| `AuthMiddleware.EnsureLoggedIn` | server/middleware/auth.js:3-10 | Exactly one of next/redirect: next iff a user is in the session, with the session untouched; otherwise `redirectTo` becomes the requested URL and the reply redirects to `/users/login` |
| `AuthController.DisplayLoginPage` | server/controllers/authController.js:8-17 | A logged-in user is redirected to `/`; otherwise the empty login form is shown |
| `AuthController.DisplayRegisterPage` | server/controllers/authController.js:19-28 | A logged-in user is redirected to `/`; otherwise the empty registration form is shown |
| `AuthController.ProcessRegister` | server/controllers/authController.js:30-94 | A refusal re-renders only username and email, never a password; success appends one user with the lower-cased email and hashed password, after checking that lower-cased email is unused, logs that user in, leaves `redirectTo` alone and redirects to `/` |
| `AuthController.FirstFailing` | server/controllers/authController.js:36-67 | The position of the first failing check: None iff all pass, and every earlier check passes |
| `AuthController.RegisterFirstFailureWins` | server/controllers/authController.js:36-67 | Registration is refused iff one of (all fields filled, passwords equal, length at least 6, email unused) fails, with the message of the first failing one in that order |
| `AuthController.SixCharacterPasswordAccepted` | server/controllers/authController.js:52-58 | A password of exactly six code units is not refused as too short |
| `AuthController.RedirectTarget` | server/controllers/authController.js:141 | The post-login destination is the remembered URL when it is a non-empty string, else `/` |
| `AuthController.WithDefaultProfile` | server/controllers/authController.js:128-131 | An empty profile image becomes the placeholder; a set one is kept |
| `AuthController.ProcessLogin` | server/controllers/authController.js:96-153 | Missing email or password has its own message; login succeeds iff the lower-cased email finds a user whose hash matches; a refusal re-renders only the email; success stores the placeholder if needed, logs the user in, clears `redirectTo` and redirects to the remembered URL or `/` |
| `AuthController.UnknownUserLooksLikeWrongPassword` | server/controllers/authController.js:110-126 | An unknown email and a wrong password give the identical reply "Invalid email or password." |
| `AuthController.RegisterThenLogin` | server/controllers/authController.js:60-126 | After registering, logging in with the same password and the email in any ASCII case succeeds |
| `AuthController.ProcessLogout` | server/controllers/authController.js:155-159 | Logout leaves no user and no remembered URL and redirects to `/` |
| `ProfileController.SubtypeRun` | server/controllers/profileController.js:20 | The greedy `[\w.+-]+` run: every character in it is a subtype character and the next one is not |
| `ProfileController.ParseAfterScheme` | server/controllers/profileController.js:20 | The text after `data:image/` splits into a well-formed subtype, `;base64,` and a payload |
| `ProfileController.ParseDataUrl` | server/controllers/profileController.js:20-24 | A successful parse returns captures that are well formed and spell the input |
| `ProfileController.SubtypeRunStops` | server/controllers/profileController.js:20 | The greedy run stops exactly at the `;` after a subtype |
| `ProfileController.ParseFormat` | server/controllers/profileController.js:20 | Every well-formed data URL is parsed back into exactly its captures |
| `ProfileController.ParseIffWellFormed` | server/controllers/profileController.js:20-24 | The parser accepts a text exactly when it is a well-formed image data URL, returning its captures; everything else is "Invalid image format." |
| `ProfileController.ExtensionIsSubtype` | server/controllers/profileController.js:20-35 | The extension is the captured subtype; the `png` fallback is unreachable |
| `ProfileController.SaveProfileImage` | server/controllers/profileController.js:19-41 | Invalid format and a decoded length over 5 MiB are refused with their messages and write nothing; otherwise one write of the decoded bytes to `userId-timestamp.subtype` and the path `/uploads/profile-pictures/` + that name |
| `ProfileController.SizeBoundary` | server/controllers/profileController.js:29-33 | Exactly 5 MiB is saved; 5 MiB + 1 byte is refused as too large |
| `ProfileController.FileNameDeterminesInstant` | server/controllers/profileController.js:36 | For one user the file name determines timestamp and extension, so saves at different instants never share a file |
| `ProfileController.FirstDotAfterDigits` | server/controllers/profileController.js:36 | In the file name the first `.` after the user id's dash ends the timestamp |
| `ProfileController.EnsureAuthenticated` | server/controllers/profileController.js:12-17 | Next iff a user is in the session; otherwise 401 with the login message |
| `ProfileController.UploadProfilePicture` | server/controllers/profileController.js:43-71 | No session user gives 401; then a missing, empty or non-string image gives 400 "No image provided." before any lookup; then an unknown user gives 404 "User not found."; a refused save gives 400 with its message; a saved image gives its URL. Every error leaves session, users and disk unchanged; success writes once and sets both the stored and the session profile image to the returned URL |
| `ProfileController.RejectedImageWritesNothing` | server/controllers/profileController.js:19-69 | An image the parser refuses is answered with 400 "Invalid image format.", a well-formed one over 5 MiB with 400 and the size message; nothing is written or changed |
| `LoginFlow.FailedLoginsChangeNothing` | server/controllers/authController.js:102-126 | Failed logins leave session and users unchanged, so a remembered URL survives them |
| `LoginFlow.LoginKeepsCredentials` | server/controllers/authController.js:128-131 | A successful login changes no email or hash, so anyone who could log in still can |
| `LoginFlow.RememberedUrlUsedOnce` | server/controllers/authController.js:141-144 | Gate then login: the protected URL is remembered, survives failed attempts, is the destination of the first successful login and is then cleared, so the URL is served and a further login goes to `/` |
| `LoginFlow.LogoutClosesTheGate` | server/middleware/auth.js:3-10 | A logged-in session passes the gate untouched; after logout the gate redirects to the login page |
| `LoginFlow.LoginChecksAgree` | server/middleware/auth.js:4-9 | The gate passes a session exactly when the login and registration pages redirect it home and exactly when the upload check accepts it; a session the gate sends to the login page is shown the form, so there is no redirect loop |

## Left out

- DOM construction, `innerHTML`, image `alt` texts, aria attributes, event-listener wiring and the one-time Escape binding in `public/Script/gallery.js`: browser plumbing.
- The file input's selected files are not modelled: neither `rebuildFileInput`/`DataTransfer` nor the clearing of the input after a pick in `handleFiles` (gallery.js:101). This is state, and it diverges from the staged list: `renderGrid` rebuilds the input only on its non-empty branch (gallery.js:77-78) and returns early when the list is empty (gallery.js:47-53), so after the last staged file is removed from the modal the input still holds that file.
- Missing widget elements (no hidden field, no remove button, no modal): each makes the source skip a write; the model assumes all are present.
- `FileReader` asynchrony: each completed read is one `FileRead` event, in any order; interleaving with other handlers is any sequence of events, and a read that fails never appends (the source does not handle it either).
- JSON text: `JSON.stringify` of the hidden field and `decodeURIComponent`/`JSON.parse` of the initial attribute are abstracted; the field is modelled as the JSON value it encodes. JSON numbers are kept as reals and never inspected.
- `Buffer.from(..., 'base64')`, `Date.now()`, `fs.writeFileSync` and the upload directory creation: parameters or returned values, as described above.
- A failing file write is not modelled: `FileWrite` is returned as a value and always succeeds in the model. In the source `fs.writeFileSync` (server/controllers/profileController.js:39) can throw, for example when the disk is full or access is denied, and the route's catch (server/controllers/profileController.js:66-68) then answers 400 with the file system error's own message, which includes the server-side file path. The model never gives these replies; its save failures carry only the invalid-format and too-large messages.
- `JsText.Decimal`: JavaScript prints numbers of 10^21 and more in exponent form; millisecond timestamps are far below that, so only plain digits are modelled.
- Strings are modelled as sequences of Unicode scalar values (Dafny's `char`), so JavaScript strings that hold an unpaired surrogate are outside the model. The source handles them: a JSON body such as `{"password":"\ud800\ud800\ud800\ud800\ud800\ud800"}` yields one, `password.length` counts each lone surrogate as one code unit (server/controllers/authController.js:52), and the data-URL regex's `.` matches it (server/controllers/profileController.js:20). `JsText.Utf16Length` is exact only for representable strings.
- `JsText.ToLowerCase`: models ASCII letters only; the full Unicode case mapping of `toLowerCase` is not modelled.
- bcrypt, Mongoose queries and saves: `hash`/`compare` parameters and the sequence `Store`; the database failures caught by the `catch` blocks ("Something went wrong. Please try again.", a thrown `findById` cast error, a failing `user.save()`) are not modelled, so those replies never occur in the model.
- The user schema is not part of this model: a newly created user carries no profile image unless the schema supplies one; the model gives it none.
- Page titles passed to the templates, and the `console.error` logging.
- `session.destroy` is modelled as the next request seeing an empty session; its callback timing is not modelled.
- `AuthMiddleware.EnsureLoggedIn`: takes a session that exists. The source guards `req.session` on line 4 but assigns to it unguarded on line 8, so it needs a session; the session middleware always provides one. The type carries this precondition.
- `server/routes/character.js`, `server/models/character.js` and the configuration and routing files: field copies, schema declarations and wiring with no logic. In particular, the shown code has no server routine that merges kept URLs with new data URLs for character portraits, and none is modelled.
- `AuthController.ProcessRegister`: posted fields are modelled as strings or absent. JSON bodies are accepted too, so a field can be a number or an array, and the model cannot represent that. For example, `{"password": 1234, "confirmPassword": 1234}` passes the filled-in and equality checks. It also passes the length check, because `(1234).length` is undefined and `undefined < 6` is false. The request then reaches the email lookup, or the catch block when `email` is not a string.
- `AuthController.ProcessLogin`: posted fields are modelled as strings or absent. Falsy non-strings (`0`, `false`, `null`) get "Please enter your email and password." as absent fields do. A truthy non-string email fails at `toLowerCase` and ends in the catch block, which is not modelled. A truthy non-string password ends there only when the email finds a user; otherwise the reply is "Invalid email or password.", as for an unknown email.
- The staged gallery list is not capped at four; only the first four items are drawn, and the hidden field carries all of them.
- Profile file names are `userId-timestamp.ext` with no random part. Two saves for the same user in the same millisecond with the same extension therefore name the same file. `ProfileController.FileNameDeterminesInstant` proves that different instants give different names.
- Registration leaves `redirectTo` in the session, so a URL remembered before registering is still the destination of a later login.

=== FILE: auth_controller.dfy ===
/**
 * Registration, login and logout. Password hashing and comparison are the
 * `hash` and `compare` parameters; the user collection is a `Store`; a
 * rendered form carries only the fields the handler passes back.
 */
module AuthController {
  import opened Options
  import opened JsText
  import opened Users
  import ProfileController

  const MinPasswordLength: nat := 6

  const MsgFillAll := "Please fill in all fields."
  const MsgMismatch := "Passwords do not match."
  const MsgTooShort := "Password should be at least 6 characters long."
  const MsgEmailTaken := "An account with that email already exists."
  const MsgEnterBoth := "Please enter your email and password."
  const MsgInvalid := "Invalid email or password."

  // ---------------------------------------------------------------------------
  // Showing the forms
  // ---------------------------------------------------------------------------

  datatype Page = LoginPage | RegisterPage

  datatype PageOutcome = RedirectTo(location: string) | RenderForm(page: Page, errorMessage: Option<string>)

  /** `displayLoginPage`: a logged-in user is sent home; everyone else gets an empty form. */
  function DisplayLoginPage(session: Session): (r: PageOutcome)
    ensures r.RedirectTo? <==> session.user.Some?
    ensures r.RedirectTo? ==> r.location == "/"
    ensures r.RenderForm? ==> r == RenderForm(LoginPage, None)
  {
    if session.user.Some? then RedirectTo("/") else RenderForm(LoginPage, None)
  }

  /** `displayRegisterPage`: as for the login page. */
  function DisplayRegisterPage(session: Session): (r: PageOutcome)
    ensures r.RedirectTo? <==> session.user.Some?
    ensures r.RedirectTo? ==> r.location == "/"
    ensures r.RenderForm? ==> r == RenderForm(RegisterPage, None)
  {
    if session.user.Some? then RedirectTo("/") else RenderForm(RegisterPage, None)
  }

  // ---------------------------------------------------------------------------
  // Registration
  // ---------------------------------------------------------------------------

  /** The posted registration fields; None is an absent field. */
  datatype RegisterInput = RegisterInput(
    username: Option<string>,
    email: Option<string>,
    password: Option<string>,
    confirmPassword: Option<string>)

  /** The data a re-rendered registration form is filled with: there is no password field to leak. */
  datatype RegisterForm = RegisterForm(username: Option<string>, email: Option<string>)

  datatype RegisterOutcome =
    | RegisterRejected(message: string, form: RegisterForm)
    | Registered(store: Store, session: Session, location: string)

  predicate AllFilled(input: RegisterInput) {
    Truthy(input.username) && Truthy(input.email) && Truthy(input.password) && Truthy(input.confirmPassword)
  }

  /** `processRegister`. `newId` is the id the database assigns to the created user. */
  function ProcessRegister(input: RegisterInput, store: Store, session: Session,
                           newId: string, hash: string -> string): (r: RegisterOutcome)
    ensures r.RegisterRejected? ==> r.form == RegisterForm(input.username, input.email)
    ensures r.Registered? ==>
      && AllFilled(input)
      && var email := ToLowerCase(input.email.value);
      && var user := UserRecord(newId, input.username.value, email, hash(input.password.value), None);
      && FindByEmail(store, email).None?
      && r.store == store + [user]
      && r.session == session.(user := Some(SessionUserOf(user)))
      && r.location == "/"
  {
    var form := RegisterForm(input.username, input.email);
    if !AllFilled(input) then RegisterRejected(MsgFillAll, form)
    else if input.password.value != input.confirmPassword.value then RegisterRejected(MsgMismatch, form)
    else if Utf16Length(input.password.value) < MinPasswordLength then RegisterRejected(MsgTooShort, form)
    else
      var email := ToLowerCase(input.email.value);
      if FindByEmail(store, email).Some? then RegisterRejected(MsgEmailTaken, form)
      else
        var user := UserRecord(newId, input.username.value, email, hash(input.password.value), None);
        Registered(store + [user], session.(user := Some(SessionUserOf(user))), "/")
  }

  /** One validation step: whether it passes, and the message shown when it does not. */
  datatype Check = Check(passes: bool, message: string)

  /** The position of the first failing check, if any. */
  function FirstFailing(checks: seq<Check>): (r: Option<nat>)
    ensures r.None? <==> forall i :: 0 <= i < |checks| ==> checks[i].passes
    ensures r.Some? ==> r.value < |checks| && !checks[r.value].passes
    ensures r.Some? ==> forall j :: 0 <= j < r.value ==> checks[j].passes
  {
    if checks == [] then None
    else if !checks[0].passes then Some(0)
    else match FirstFailing(checks[1..])
      case None => None
      case Some(k) => Some(k + 1)
  }

  /** The message of the first failing check, if any. */
  function FirstFailure(checks: seq<Check>): Option<string> {
    match FirstFailing(checks)
    case None => None
    case Some(i) => Some(checks[i].message)
  }

  /** The registration checks in the order they are made. */
  function RegisterChecks(input: RegisterInput, store: Store): seq<Check> {
    var password := input.password.GetOr("");
    [ Check(AllFilled(input), MsgFillAll),
      Check(password == input.confirmPassword.GetOr(""), MsgMismatch),
      Check(Utf16Length(password) >= MinPasswordLength, MsgTooShort),
      Check(FindByEmail(store, ToLowerCase(input.email.GetOr(""))).None?, MsgEmailTaken) ]
  }

  /** Registration is refused exactly when some check fails, with the message of the first one that does. */
  lemma RegisterFirstFailureWins(input: RegisterInput, store: Store, session: Session,
                                 newId: string, hash: string -> string)
    ensures var r := ProcessRegister(input, store, session, newId, hash);
      var first := FirstFailure(RegisterChecks(input, store));
      && (r.RegisterRejected? <==> first.Some?)
      && (r.RegisterRejected? ==> r.message == first.value)
  {
    var checks := RegisterChecks(input, store);
    if !AllFilled(input) {
      assert FirstFailing(checks) == Some(0);
    } else if input.password.value != input.confirmPassword.value {
      assert FirstFailing(checks) == Some(1);
    } else if Utf16Length(input.password.value) < MinPasswordLength {
      assert checks[0].passes && checks[1].passes && !checks[2].passes;
      assert FirstFailing(checks) == Some(2);
    } else if FindByEmail(store, ToLowerCase(input.email.value)).Some? {
      assert checks[0].passes && checks[1].passes && checks[2].passes && !checks[3].passes;
      assert FirstFailing(checks) == Some(3);
    } else {
      assert forall i :: 0 <= i < |checks| ==> checks[i].passes;
    }
  }

  /** A password of exactly six code units passes the length check. */
  lemma SixCharacterPasswordAccepted(input: RegisterInput, store: Store, session: Session,
                                     newId: string, hash: string -> string)
    requires AllFilled(input) && input.password == input.confirmPassword
    requires Utf16Length(input.password.value) == MinPasswordLength
    ensures ProcessRegister(input, store, session, newId, hash) != RegisterRejected(MsgTooShort, RegisterForm(input.username, input.email))
  {
  }

  // ---------------------------------------------------------------------------
  // Login and logout
  // ---------------------------------------------------------------------------

  datatype LoginInput = LoginInput(email: Option<string>, password: Option<string>)

  /** A refused login re-renders the form with only the email; a successful one redirects. */
  datatype LoginOutcome =
    | LoginRejected(message: string, formEmail: Option<string>)
    | LoggedIn(store: Store, session: Session, location: string)

  /** `req.session.redirectTo || '/'`. */
  function RedirectTarget(redirectTo: Option<string>): (location: string)
    ensures Truthy(redirectTo) ==> location == redirectTo.value
    ensures !Truthy(redirectTo) ==> location == "/"
  {
    if Truthy(redirectTo) then redirectTo.value else "/"
  }

  /** A user without a profile image gets the placeholder; one that has an image keeps it. */
  function WithDefaultProfile(u: UserRecord): (v: UserRecord)
    ensures Truthy(v.profileImage)
    ensures Truthy(u.profileImage) ==> v == u
    ensures !Truthy(u.profileImage) ==> v == u.(profileImage := Some(ProfileController.DefaultProfile))
  {
    if Truthy(u.profileImage) then u else u.(profileImage := Some(ProfileController.DefaultProfile))
  }

  /** Whether the credentials name a stored user whose password matches. */
  predicate Authenticates(input: LoginInput, store: Store, compare: (string, string) -> bool) {
    && Truthy(input.email) && Truthy(input.password)
    && var found := FindByEmail(store, ToLowerCase(input.email.value));
    && found.Some?
    && compare(input.password.value, store[found.value].passwordHash)
  }

  /** `processLogin`. */
  function ProcessLogin(input: LoginInput, store: Store, session: Session,
                        compare: (string, string) -> bool): (r: LoginOutcome)
    ensures !Truthy(input.email) || !Truthy(input.password) ==> r == LoginRejected(MsgEnterBoth, input.email)
    ensures r.LoggedIn? <==> Authenticates(input, store, compare)
    ensures r.LoginRejected? ==> r.formEmail == input.email
    ensures r.LoginRejected? && Truthy(input.email) && Truthy(input.password) ==> r.message == MsgInvalid
    ensures r.LoggedIn? ==>
      && var i := FindByEmail(store, ToLowerCase(input.email.value)).value;
      && var user := WithDefaultProfile(store[i]);
      && r.store == store[i := user]
      && r.session == Session(Some(SessionUserOf(user)), None)
      && r.location == RedirectTarget(session.redirectTo)
  {
    if !Truthy(input.email) || !Truthy(input.password) then LoginRejected(MsgEnterBoth, input.email)
    else match FindByEmail(store, ToLowerCase(input.email.value))
      case None => LoginRejected(MsgInvalid, input.email)
      case Some(i) =>
        if !compare(input.password.value, store[i].passwordHash) then LoginRejected(MsgInvalid, input.email)
        else
          var user := WithDefaultProfile(store[i]);
          LoggedIn(store[i := user], Session(Some(SessionUserOf(user)), None), RedirectTarget(session.redirectTo))
  }

  /** An unknown email and a wrong password produce the very same reply. */
  lemma UnknownUserLooksLikeWrongPassword(input: LoginInput, compare: (string, string) -> bool,
                                          unknownIn: Store, s1: Session, wrongIn: Store, s2: Session)
    requires Truthy(input.email) && Truthy(input.password)
    requires FindByEmail(unknownIn, ToLowerCase(input.email.value)).None?
    requires FindByEmail(wrongIn, ToLowerCase(input.email.value)).Some?
    requires !compare(input.password.value, wrongIn[FindByEmail(wrongIn, ToLowerCase(input.email.value)).value].passwordHash)
    ensures ProcessLogin(input, unknownIn, s1, compare) == ProcessLogin(input, wrongIn, s2, compare)
    ensures ProcessLogin(input, unknownIn, s1, compare) == LoginRejected(MsgInvalid, input.email)
  {
  }

  /**
   * Whoever has just registered can log in with the same password and the email
   * in any ASCII case, provided the password check accepts what the hash produced.
   */
  lemma RegisterThenLogin(input: RegisterInput, store: Store, session: Session, newId: string,
                          hash: string -> string, compare: (string, string) -> bool, loginEmail: string)
    requires forall p :: compare(p, hash(p))
    requires ProcessRegister(input, store, session, newId, hash).Registered?
    requires ToLowerCase(loginEmail) == ToLowerCase(input.email.value)
    ensures var reg := ProcessRegister(input, store, session, newId, hash);
      ProcessLogin(LoginInput(Some(loginEmail), input.password), reg.store, reg.session, compare).LoggedIn?
  {
    var reg := ProcessRegister(input, store, session, newId, hash);
    var email := ToLowerCase(input.email.value);
    var user := UserRecord(newId, input.username.value, email, hash(input.password.value), None);
    LowerIdempotent(input.email.value);
    FindAppended(store, user);
    assert reg.store[|store|] == user;
  }

  /** `processLogout`: the session is destroyed and the browser sent home. */
  function ProcessLogout(session: Session): (r: (Session, string))
    ensures r.0.user.None? && r.0.redirectTo.None?
    ensures r.1 == "/"
  {
    (Session(None, None), "/")
  }
}

=== FILE: auth_middleware.dfy ===
/**
 * The login gate put in front of protected routes. A request's session always
 * exists (the session middleware runs first), so the gate takes one.
 */
module AuthMiddleware {
  import opened Options
  import opened Users

  const LoginPath := "/users/login"

  /** The gate either hands the request on (`next()`) or redirects it; never both. */
  datatype GateOutcome =
    | Next(session: Session)
    | RedirectToLogin(session: Session, location: string)

  /** `ensureLoggedIn`: logged-in requests pass untouched; the others remember their URL and go to the login page. */
  function EnsureLoggedIn(session: Session, originalUrl: string): (r: GateOutcome)
    ensures r.Next? <==> session.user.Some?
    ensures r.Next? ==> r.session == session
    ensures r.RedirectToLogin? ==>
      && r.location == LoginPath
      && r.session.redirectTo == Some(originalUrl)
      && r.session.user == session.user
  {
    if session.user.Some? then Next(session)
    else RedirectToLogin(session.(redirectTo := Some(originalUrl)), LoginPath)
  }
}

=== FILE: gallery.dfy ===
/**
 * The portrait gallery widget of the character form: an ordered list of staged
 * images, the view derived from it (grid state class, per-cell layout class,
 * hidden-field value, remove-button state) and the modal used to remove images.
 * DOM construction and event wiring are not modelled; each user or reader event
 * is a transition of an immutable `Widget` value.
 */
module Gallery {
  import opened Options

  /** A JavaScript value as `JSON.parse` produces it; the model never inspects numbers. */
  datatype Json =
    | JNull
    | JBool(b: bool)
    | JNumber(n: real)
    | JString(s: string)
    | JArray(elems: seq<Json>)
    | JObject(fields: seq<(string, Json)>)

  /** Where a staged image came from: the server-embedded list, or a file the user picked. */
  datatype Origin = Existing | File

  datatype Item = Item(src: Json, origin: Origin)

  /** A file the user picked: its declared MIME type and the data URL its completed read yields. */
  datatype PickedFile = PickedFile(mimeType: string, dataUrl: string)

  /** Only the first four staged images are drawn in the grid. */
  const DisplayLimit: nat := 4

  function Min(a: nat, b: nat): nat {
    if a <= b then a else b
  }

  // ---------------------------------------------------------------------------
  // Initial list and hidden field
  // ---------------------------------------------------------------------------

  /**
   * The initial staged list, from the container's initial-images attribute.
   * `decodeAndParse` stands for `JSON.parse(decodeURIComponent(text))`; None
   * means one of the two threw. Every failure yields the empty list.
   */
  function Init(attribute: Option<string>, decodeAndParse: string -> Option<Json>): (items: seq<Item>)
    ensures (attribute.None? || attribute.value == "") ==> items == []
    ensures attribute.Some? && attribute.value != "" ==>
      match decodeAndParse(attribute.value)
      case Some(JArray(xs)) =>
        |items| == |xs| && forall i :: 0 <= i < |xs| ==> items[i] == Item(xs[i], Existing)
      case _ => items == []
  {
    var encoded := attribute.GetOr("");
    if encoded == "" then []
    else match decodeAndParse(encoded)
      case Some(JArray(xs)) => seq(|xs|, i requires 0 <= i < |xs| => Item(xs[i], Existing))
      case _ => []
  }

  /** The `src` of every staged item, in list order. */
  function Sources(items: seq<Item>): (srcs: seq<Json>)
    ensures |srcs| == |items|
    ensures forall i :: 0 <= i < |items| ==> srcs[i] == items[i].src
  {
    seq(|items|, i requires 0 <= i < |items| => items[i].src)
  }

  /** The value the hidden form field carries (as JSON text): the array of every item's `src`. */
  function SyncField(items: seq<Item>): Json {
    JArray(Sources(items))
  }

  /**
   * Feeding the hidden field's value back through the initialiser restores
   * the same sources, in the same order, all marked as existing images.
   */
  lemma ReloadRestoresSources(items: seq<Item>, text: string, decodeAndParse: string -> Option<Json>)
    requires text != "" && decodeAndParse(text) == Some(SyncField(items))
    ensures Sources(Init(Some(text), decodeAndParse)) == Sources(items)
    ensures forall i :: 0 <= i < |items| ==> Init(Some(text), decodeAndParse)[i].origin == Existing
  {
  }

  // ---------------------------------------------------------------------------
  // Rendering
  // ---------------------------------------------------------------------------

  /** The grid's state class: `is-empty` or `count-k`. */
  datatype GridState = IsEmpty | Count(k: nat)

  datatype CellLayout = OneImg | TwoImg | ThreeImgTop | ThreeImgBottom | FourImg

  datatype Cell = Cell(src: Json, layout: CellLayout)

  datatype View = View(grid: GridState, cells: seq<Cell>, field: Json, removeDisabled: bool)

  /** The layout class of cell `index` when `shown` cells are drawn. */
  function CellClass(shown: nat, index: nat): CellLayout
    requires 1 <= shown <= DisplayLimit && index < shown
  {
    if shown == 1 then OneImg
    else if shown == 2 then TwoImg
    else if shown == 3 then (if index < 2 then ThreeImgTop else ThreeImgBottom)
    else FourImg
  }

  /** The remove button's disabled state. */
  function ToggleActions(items: seq<Item>): bool {
    |items| == 0
  }

  /** What the grid shows after a render. */
  function Render(items: seq<Item>): (v: View)
    ensures v.grid.IsEmpty? <==> |items| == 0
    ensures v.grid.Count? ==> v.grid.k == Min(|items|, DisplayLimit)
    ensures |v.cells| == Min(|items|, DisplayLimit)
    ensures forall i :: 0 <= i < |v.cells| ==> v.cells[i].src == items[i].src
    ensures forall i :: 0 <= i < |v.cells| ==> v.cells[i].layout == CellClass(|v.cells|, i)
    ensures v.field.JArray? && v.field.elems == Sources(items)
    ensures v.removeDisabled <==> |items| == 0
  {
    if |items| == 0 then
      View(IsEmpty, [], SyncField(items), ToggleActions(items))
    else
      var shown := items[..Min(|items|, DisplayLimit)];
      var cells := seq(|shown|, i requires 0 <= i < |shown| => Cell(shown[i].src, CellClass(|shown|, i)));
      View(Count(|shown|), cells, SyncField(items), ToggleActions(items))
  }

  /** With three portraits the first two share the top row and the third sits alone below. */
  lemma ThreeImageLayout(items: seq<Item>)
    requires |items| == 3
    ensures var cells := Render(items).cells;
      |cells| == 3 && cells[0].layout == ThreeImgTop && cells[1].layout == ThreeImgTop
      && cells[2].layout == ThreeImgBottom
  {
  }

  /** With one, two, or four and more portraits every drawn cell carries the same class. */
  lemma UniformLayout(items: seq<Item>, i: nat, j: nat)
    requires |items| != 3
    requires i < |Render(items).cells| && j < |Render(items).cells|
    ensures Render(items).cells[i].layout == Render(items).cells[j].layout
  {
  }

  /** The class each count gives: `one-img`, `two-img`, and `four-img` from four portraits on. */
  lemma LayoutClassByCount(items: seq<Item>)
    ensures |items| == 1 ==> Render(items).cells[0].layout == OneImg
    ensures |items| == 2 ==> forall i | 0 <= i < 2 :: Render(items).cells[i].layout == TwoImg
    ensures |items| >= 4 ==> forall i | 0 <= i < 4 :: Render(items).cells[i].layout == FourImg
  {
  }

  /** A cell's layout class tells how many cells are drawn. */
  lemma CellClassIdentifiesCount(a: nat, i: nat, b: nat, j: nat)
    requires 1 <= a <= DisplayLimit && i < a
    requires 1 <= b <= DisplayLimit && j < b
    ensures CellClass(a, i) == CellClass(b, j) ==> a == b
  {
  }

  // ---------------------------------------------------------------------------
  // Staging files
  // ---------------------------------------------------------------------------

  /** `file.type.startsWith('image/')`. */
  predicate IsImage(f: PickedFile) {
    "image/" <= f.mimeType
  }

  /** The files `handleFiles` starts reading: the images, each as often as it was picked. */
  function AcceptImages(files: seq<PickedFile>): (accepted: seq<PickedFile>)
    ensures forall f :: f in accepted ==> IsImage(f)
    ensures forall f | IsImage(f) :: multiset(accepted)[f] == multiset(files)[f]
  {
    if files == [] then []
    else
      assert files == [files[0]] + files[1..];
      (if IsImage(files[0]) then [files[0]] else []) + AcceptImages(files[1..])
  }

  /** The staged item a completed read appends. */
  function FileItem(f: PickedFile): Item {
    Item(JString(f.dataUrl), File)
  }

  function FileItems(files: seq<PickedFile>): (items: seq<Item>)
    ensures |items| == |files|
    ensures forall k :: 0 <= k < |files| ==> items[k] == FileItem(files[k])
  {
    seq(|files|, k requires 0 <= k < |files| => FileItem(files[k]))
  }

  /** Removing the item at `index` (`items.splice(index, 1)`); out of range is a no-op. */
  function RemoveAt(items: seq<Item>, index: nat): (r: seq<Item>)
    ensures index >= |items| ==> r == items
    ensures index < |items| ==> |r| == |items| - 1
    ensures index < |items| ==> forall k :: 0 <= k < index ==> r[k] == items[k]
    ensures index < |items| ==> forall k :: index <= k < |r| ==> r[k] == items[k + 1]
    ensures index < |items| ==> multiset(r) + multiset{items[index]} == multiset(items)
  {
    if index < |items| then
      assert items == items[..index] + [items[index]] + items[index + 1..];
      items[..index] + items[index + 1..]
    else items
  }

  // ---------------------------------------------------------------------------
  // The widget as a state machine
  // ---------------------------------------------------------------------------

  /** The removal modal: closed, or open with one thumbnail (and remove button) per listed source. */
  datatype Modal = Closed | Open(thumbs: seq<Json>)

  datatype Widget = Widget(items: seq<Item>, view: View, modal: Modal)

  /**
   * The view is the render of the current list, and an open modal shows a
   * non-empty prefix of the current sources: reads that complete while it is
   * open append items it does not show yet.
   */
  predicate Consistent(w: Widget) {
    && w.view == Render(w.items)
    && (w.modal.Open? ==>
          0 < |w.modal.thumbs| <= |w.items| && w.modal.thumbs == Sources(w.items)[..|w.modal.thumbs|])
  }

  /** `openModal`: with nothing staged the modal closes instead of opening. */
  function OpenModal(items: seq<Item>): (m: Modal)
    ensures m.Closed? <==> |items| == 0
    ensures m.Open? ==> m.thumbs == Sources(items)
  {
    if |items| == 0 then Closed else Open(Sources(items))
  }

  /** `setupGallery`: the initial list, the modal forced closed, one render. */
  function Setup(attribute: Option<string>, decodeAndParse: string -> Option<Json>): (w: Widget)
    ensures Consistent(w) && w.modal == Closed
    ensures w.items == Init(attribute, decodeAndParse)
  {
    var items := Init(attribute, decodeAndParse);
    Widget(items, Render(items), Closed)
  }

  datatype Event =
    | FileRead(file: PickedFile)
    | RemoveButtonClicked
    | ThumbRemoveClicked(index: nat)
    | CloseClicked
    | BackdropClicked
    | KeyPressed(key: string)

  /**
   * One event handler running to completion. The remove button opens the modal
   * only while enabled; close control, backdrop and Escape (while open) close
   * it; none of the modal controls touches the list or the grid.
   */
  function Step(w: Widget, e: Event): (r: Widget)
    ensures e.RemoveButtonClicked? && w.view.removeDisabled ==> r == w
    ensures e.RemoveButtonClicked? && !w.view.removeDisabled ==> r.modal == OpenModal(w.items)
    ensures (e.CloseClicked? || e.BackdropClicked?) ==> r.modal == Closed
    ensures e == KeyPressed("Escape") && w.modal.Open? ==> r.modal == Closed
    ensures e.KeyPressed? && (e.key != "Escape" || w.modal.Closed?) ==> r == w
    ensures e.ThumbRemoveClicked? && !(w.modal.Open? && e.index < |w.modal.thumbs|) ==> r == w
    ensures !e.FileRead? && !e.ThumbRemoveClicked? ==> r.items == w.items && r.view == w.view
  {
    match e
    case FileRead(f) =>
      var items := w.items + [FileItem(f)];
      w.(items := items, view := Render(items))
    case RemoveButtonClicked =>
      if w.view.removeDisabled then w else w.(modal := OpenModal(w.items))
    case ThumbRemoveClicked(i) =>
      if w.modal.Open? && i < |w.modal.thumbs| then
        var items := RemoveAt(w.items, i);
        Widget(items, Render(items), OpenModal(items))
      else w
    case CloseClicked => w.(modal := Closed)
    case BackdropClicked => w.(modal := Closed)
    case KeyPressed(k) => if k == "Escape" && w.modal.Open? then w.(modal := Closed) else w
  }

  /** Every handler keeps the widget consistent, so after it the remove button is disabled iff nothing is staged. */
  lemma StepPreservesConsistency(w: Widget, e: Event)
    requires Consistent(w)
    ensures Consistent(Step(w, e))
    ensures Step(w, e).view.removeDisabled <==> |Step(w, e).items| == 0
  {
    match e
    case FileRead(f) =>
      var r := Step(w, e);
      if w.modal.Open? {
        var n := |w.modal.thumbs|;
        assert Sources(r.items)[..n] == Sources(w.items)[..n];
      }
    case _ =>
  }

  /** A completed read appends exactly one file item at the end and leaves the earlier items alone. */
  lemma FileReadAppends(w: Widget, f: PickedFile)
    ensures var r := Step(w, FileRead(f));
      |r.items| == |w.items| + 1 && r.items[..|w.items|] == w.items
      && r.items[|w.items|] == Item(JString(f.dataUrl), File)
      && r.modal == w.modal
  {
  }

  /** A remove button in the modal deletes the very item its thumbnail shows; removing the last one closes the modal. */
  lemma ThumbRemoveDeletesShownItem(w: Widget, i: nat)
    requires Consistent(w) && w.modal.Open? && i < |w.modal.thumbs|
    ensures var r := Step(w, ThumbRemoveClicked(i));
      && w.items[i].src == w.modal.thumbs[i]
      && r.items == RemoveAt(w.items, i)
      && |r.items| == |w.items| - 1
      && (|r.items| == 0 ==> r.modal == Closed && r.view.removeDisabled && r.view.grid == IsEmpty)
      && (|r.items| > 0 ==> r.modal == Open(Sources(r.items)))
  {
  }

  /** The handlers run one after another. */
  function Run(w: Widget, events: seq<Event>): Widget
    decreases |events|
  {
    if events == [] then w else Run(Step(w, events[0]), events[1..])
  }

  lemma {:induction false} RunPreservesConsistency(w: Widget, events: seq<Event>)
    requires Consistent(w)
    ensures Consistent(Run(w, events))
    ensures Run(w, events).view.removeDisabled <==> |Run(w, events).items| == 0
    decreases |events|
  {
    if events != [] {
      StepPreservesConsistency(w, events[0]);
      RunPreservesConsistency(Step(w, events[0]), events[1..]);
    }
  }

  function ReadEvents(files: seq<PickedFile>): (events: seq<Event>)
    ensures |events| == |files|
    ensures forall k :: 0 <= k < |files| ==> events[k] == FileRead(files[k])
  {
    seq(|files|, k requires 0 <= k < |files| => FileRead(files[k]))
  }

  /** Reads completing in the order `done` append their items in that order after the current list. */
  lemma {:induction false} ReadsAppendInCompletionOrder(w: Widget, done: seq<PickedFile>)
    ensures Run(w, ReadEvents(done)).items == w.items + FileItems(done)
    ensures Run(w, ReadEvents(done)).modal == w.modal
    decreases |done|
  {
    if done != [] {
      var w1 := Step(w, FileRead(done[0]));
      assert ReadEvents(done)[1..] == ReadEvents(done[1..]);
      ReadsAppendInCompletionOrder(w1, done[1..]);
      assert FileItems(done) == [FileItem(done[0])] + FileItems(done[1..]);
    }
  }

  /**
   * Whatever order the reads of one pick complete in, the list grows by
   * exactly one file item per accepted image, after the untouched earlier items.
   */
  lemma PickedImagesAppendOnce(w: Widget, files: seq<PickedFile>, done: seq<PickedFile>)
    requires multiset(done) == multiset(AcceptImages(files))
    ensures |done| == |AcceptImages(files)|
    ensures |Run(w, ReadEvents(done)).items| == |w.items| + |done|
    ensures Run(w, ReadEvents(done)).items[..|w.items|] == w.items
    ensures forall k :: 0 <= k < |done| ==>
      Run(w, ReadEvents(done)).items[|w.items| + k] == FileItem(done[k]) && IsImage(done[k])
  {
    ReadsAppendInCompletionOrder(w, done);
    assert |done| == |multiset(done)| == |AcceptImages(files)|;
    forall k | 0 <= k < |done| ensures IsImage(done[k]) {
      assert done[k] in multiset(done);
      assert done[k] in AcceptImages(files);
    }
  }
}

=== FILE: js_text.dfy ===
/**
 * The few JavaScript string behaviours the controllers and the gallery rely on:
 * truthiness of an optional string, `length` in UTF-16 code units, `toLowerCase`,
 * `split(sep)[1]`, and the decimal text of a non-negative integer.
 */
module JsText {
  import opened Options

  /** `!!s` for an optional string: absent and "" are falsy, every other string is truthy. */
  predicate Truthy(s: Option<string>) {
    s.Some? && s.value != ""
  }

  /** Characters outside the Basic Multilingual Plane take two UTF-16 code units. */
  predicate IsAstral(c: char) {
    c as int >= 0x1_0000
  }

  /** The positions of `s` holding astral characters. */
  function AstralPositions(s: string): set<nat> {
    set i: nat | i < |s| && IsAstral(s[i])
  }

  /** JavaScript's `s.length`: one code unit per character plus one more per astral character. */
  function Utf16Length(s: string): (n: nat)
    ensures n == |s| + |AstralPositions(s)|
    ensures |s| <= n <= 2 * |s|
    decreases |s|
  {
    if s == [] then 0
    else
      var init := s[..|s| - 1];
      var last := |s| - 1;
      assert AstralPositions(s) == AstralPositions(init) + (if IsAstral(s[last]) then {last} else {});
      assert last !in AstralPositions(init);
      Utf16Length(init) + (if IsAstral(s[last]) then 2 else 1)
  }

  predicate IsUpper(c: char) {
    'A' <= c <= 'Z'
  }

  function LowerChar(c: char): char {
    if IsUpper(c) then (c as int + 32) as char else c
  }

  /** `s.toLowerCase()`, restricted to the ASCII letters. */
  function ToLowerCase(s: string): (r: string)
    ensures |r| == |s|
    ensures forall i :: 0 <= i < |r| ==> !IsUpper(r[i])
    ensures forall i :: 0 <= i < |s| && !IsUpper(s[i]) ==> r[i] == s[i]
    ensures forall i :: 0 <= i < |s| && IsUpper(s[i]) ==> r[i] as int == s[i] as int + 32
  {
    seq(|s|, i requires 0 <= i < |s| => LowerChar(s[i]))
  }

  /** Lower-casing twice is lower-casing once, so a stored lower-case email matches its own lookup key. */
  lemma LowerIdempotent(s: string)
    ensures ToLowerCase(ToLowerCase(s)) == ToLowerCase(s)
  {
  }

  /** `s.indexOf(c)`, with None for -1. */
  function IndexOf(s: string, c: char): (r: Option<nat>)
    ensures r.None? <==> c !in s
    ensures r.Some? ==> r.value < |s| && s[r.value] == c && c !in s[..r.value]
  {
    if s == [] then None
    else if s[0] == c then Some(0)
    else match IndexOf(s[1..], c)
      case None => None
      case Some(k) =>
        assert s[..k + 1] == [s[0]] + s[1..][..k];
        Some(k + 1)
  }

  /**
   * `v` is the text of `s` after its first `sep`, at position `i`, up to the
   * next `sep` or the end.
   */
  predicate FieldAfter(s: string, sep: char, i: nat, v: string) {
    && i < |s| && s[i] == sep && sep !in s[..i]
    && i + 1 + |v| <= |s| && v == s[i + 1..i + 1 + |v|]
    && (i + 1 + |v| == |s| || s[i + 1 + |v|] == sep)
  }

  /**
   * `s.split(sep)[1]`: the text after the first `sep` up to the next `sep` or the
   * end; None (undefined) when `sep` does not occur.
   */
  function SplitSecond(s: string, sep: char): (r: Option<string>)
    ensures r.None? <==> sep !in s
    ensures r.Some? ==> sep !in r.value
    ensures r.Some? ==> exists i :: FieldAfter(s, sep, i, r.value)
  {
    match IndexOf(s, sep)
    case None => None
    case Some(i) =>
      var rest := s[i + 1..];
      match IndexOf(rest, sep)
      case None =>
        assert rest == s[i + 1..i + 1 + |rest|];
        assert FieldAfter(s, sep, i, rest);
        Some(rest)
      case Some(j) =>
        assert rest[..j] == s[i + 1..i + 1 + j];
        assert FieldAfter(s, sep, i, rest[..j]);
        Some(rest[..j])
  }

  /** Splitting `a + sep + b` where neither part holds `sep` yields `b` as the second field. */
  lemma SplitSecondOfPair(a: string, sep: char, b: string)
    requires sep !in a && sep !in b
    ensures SplitSecond(a + [sep] + b, sep) == Some(b)
  {
    var s := a + [sep] + b;
    assert s[|a|] == sep;
    assert s[..|a|] == a;
    var i := IndexOf(s, sep).value;
    assert i == |a|;
    assert s[i + 1..] == b;
  }

  predicate IsDigit(c: char) {
    '0' <= c <= '9'
  }

  predicate AllDigits(s: string) {
    forall i :: 0 <= i < |s| ==> IsDigit(s[i])
  }

  function DigitChar(d: nat): (c: char)
    requires d < 10
    ensures IsDigit(c)
  {
    ('0' as int + d) as char
  }

  function DigitValue(c: char): nat
    requires IsDigit(c)
  {
    c as int - '0' as int
  }

  /** `${n}` for a non-negative integer: its decimal digits, most significant first, with no leading zero. */
  function Decimal(n: nat): (r: string)
    ensures |r| >= 1 && AllDigits(r)
    ensures n >= 10 ==> r[0] != '0'
    decreases n
  {
    if n < 10 then [DigitChar(n)] else Decimal(n / 10) + [DigitChar(n % 10)]
  }

  /** The number a string of decimal digits denotes. */
  function DecimalValue(s: string): nat
    requires AllDigits(s)
  {
    if s == [] then 0 else 10 * DecimalValue(s[..|s| - 1]) + DigitValue(s[|s| - 1])
  }

  /** Reading back the decimal text of `n` gives `n`. */
  lemma {:induction false} DecimalRoundTrip(n: nat)
    ensures DecimalValue(Decimal(n)) == n
    decreases n
  {
    if n >= 10 {
      DecimalRoundTrip(n / 10);
      var r := Decimal(n);
      assert r[..|r| - 1] == Decimal(n / 10);
    }
  }

  /** Distinct numbers have distinct decimal texts. */
  lemma DecimalInjective(a: nat, b: nat)
    ensures Decimal(a) == Decimal(b) ==> a == b
  {
    DecimalRoundTrip(a);
    DecimalRoundTrip(b);
  }
}

=== FILE: login_flow.dfy ===
/**
 * The login gate and the login handler together, as one server seen from a
 * single browser session: a protected URL requested while logged out becomes
 * the destination of the next successful login, and only of that one.
 */
module LoginFlow {
  import opened Options
  import opened JsText
  import opened Users
  import opened AuthMiddleware
  import opened AuthController
  import ProfileController

  datatype Server = Server(session: Session, store: Store)

  datatype Request =
    | Visit(url: string)
    | PostLogin(input: LoginInput)
    | PostLogout

  datatype Reply =
    | Served(url: string)
    | Redirected(location: string)
    | LoginFormShown(message: string)

  /** One request: a protected page behind the gate, the login form's post, or logout. */
  function Handle(s: Server, req: Request, compare: (string, string) -> bool): (Server, Reply) {
    match req
    case Visit(url) =>
      (match EnsureLoggedIn(s.session, url)
       case Next(session) => (s.(session := session), Served(url))
       case RedirectToLogin(session, location) => (s.(session := session), Redirected(location)))
    case PostLogin(input) =>
      (match ProcessLogin(input, s.store, s.session, compare)
       case LoginRejected(message, _) => (s, LoginFormShown(message))
       case LoggedIn(store, session, location) => (Server(session, store), Redirected(location)))
    case PostLogout =>
      var (session, location) := ProcessLogout(s.session);
      (s.(session := session), Redirected(location))
  }

  /** Login attempts made one after another. */
  function RunLogins(s: Server, attempts: seq<LoginInput>, compare: (string, string) -> bool): Server
    decreases |attempts|
  {
    if attempts == [] then s else RunLogins(Handle(s, PostLogin(attempts[0]), compare).0, attempts[1..], compare)
  }

  /** Failed login attempts change neither the session (so a remembered URL survives them) nor the users. */
  lemma {:induction false} FailedLoginsChangeNothing(s: Server, attempts: seq<LoginInput>,
                                                     compare: (string, string) -> bool)
    requires forall k :: 0 <= k < |attempts| ==> !Authenticates(attempts[k], s.store, compare)
    ensures RunLogins(s, attempts, compare) == s
    decreases |attempts|
  {
    if attempts != [] {
      assert Handle(s, PostLogin(attempts[0]), compare).0 == s;
      FailedLoginsChangeNothing(s, attempts[1..], compare);
    }
  }

  /** A successful login leaves every password hash and email in place, so whoever could log in still can. */
  lemma LoginKeepsCredentials(s: Server, good: LoginInput, again: LoginInput, compare: (string, string) -> bool)
    requires Authenticates(good, s.store, compare)
    requires Authenticates(again, s.store, compare)
    ensures Authenticates(again, Handle(s, PostLogin(good), compare).0.store, compare)
  {
    var i := FindByEmail(s.store, ToLowerCase(good.email.value)).value;
    var store := s.store[i := WithDefaultProfile(s.store[i])];
    var e := ToLowerCase(again.email.value);
    assert forall j :: 0 <= j < |store| ==> store[j].email == s.store[j].email;
    assert FindByEmail(store, e) == FindByEmail(s.store, e) by {
      FindByEmailSameEmails(s.store, store, e);
    }
  }

  /** Two collections holding the same emails in the same order answer an email lookup alike. */
  lemma {:induction false} FindByEmailSameEmails(a: Store, b: Store, email: string)
    requires |a| == |b|
    requires forall j :: 0 <= j < |a| ==> a[j].email == b[j].email
    ensures FindByEmail(a, email) == FindByEmail(b, email)
    decreases |a|
  {
    if a != [] {
      FindByEmailSameEmails(a[1..], b[1..], email);
    }
  }

  /**
   * Logged out, a visit to a protected URL is redirected to the login page and
   * remembered; failed attempts keep it; the first successful login returns to
   * it and forgets it, after which the URL is served and a further login goes home.
   */
  lemma RememberedUrlUsedOnce(s: Server, url: string, failures: seq<LoginInput>, good: LoginInput,
                              again: LoginInput, compare: (string, string) -> bool)
    requires s.session.user.None? && "/" <= url
    requires forall k :: 0 <= k < |failures| ==> !Authenticates(failures[k], s.store, compare)
    requires Authenticates(good, s.store, compare) && Authenticates(again, s.store, compare)
    ensures var (s1, reply1) := Handle(s, Visit(url), compare);
      && reply1 == Redirected(LoginPath)
      && s1.session.redirectTo == Some(url)
      && RunLogins(s1, failures, compare) == s1
      && var (s2, reply2) := Handle(s1, PostLogin(good), compare);
      && reply2 == Redirected(url)
      && s2.session.user.Some? && s2.session.redirectTo == None
      && Handle(s2, Visit(url), compare) == (s2, Served(url))
      && Handle(s2, PostLogin(again), compare).1 == Redirected("/")
  {
    var s1 := Server(s.session.(redirectTo := Some(url)), s.store);
    assert Handle(s, Visit(url), compare) == (s1, Redirected(LoginPath));
    FailedLoginsChangeNothing(s1, failures, compare);
    var login := ProcessLogin(good, s1.store, s1.session, compare);
    assert login.LoggedIn? && login.location == url;
    var s2 := Server(login.session, login.store);
    assert Handle(s1, PostLogin(good), compare) == (s2, Redirected(url));
    LoginKeepsCredentials(s1, good, again, compare);
    assert ProcessLogin(again, s2.store, s2.session, compare).location == "/";
  }

  /** Behind the gate, a logged-in session is handed on untouched, and after logout the gate redirects again. */
  lemma LogoutClosesTheGate(s: Server, url: string, compare: (string, string) -> bool)
    requires s.session.user.Some?
    ensures Handle(s, Visit(url), compare) == (s, Served(url))
    ensures var s1 := Handle(s, PostLogout, compare).0;
      Handle(s1, Visit(url), compare).1 == Redirected(LoginPath)
  {
  }

  /**
   * The gate, the form pages and the upload check agree on who is logged in:
   * the gate lets a session through exactly when the login and registration
   * pages send it home, and exactly when the upload route accepts it. So a
   * session the gate sends to the login page is shown the form, never redirected
   * back, and there is no redirect loop.
   */
  lemma LoginChecksAgree(session: Session, url: string)
    ensures EnsureLoggedIn(session, url).Next? <==> DisplayLoginPage(session).RedirectTo?
    ensures EnsureLoggedIn(session, url).Next? <==> DisplayRegisterPage(session).RedirectTo?
    ensures EnsureLoggedIn(session, url).Next? <==> ProfileController.EnsureAuthenticated(session).None?
    ensures var gate := EnsureLoggedIn(session, url);
      gate.RedirectToLogin? ==> DisplayLoginPage(gate.session) == RenderForm(LoginPage, None)
  {
  }
}

=== FILE: options.dfy ===
/** Optional values: JavaScript's `undefined` (an absent field) versus a present one. */
module Options {

  datatype Option<+T> = None | Some(value: T) {

    /** The present value, or `default` when absent. */
    function GetOr(default: T): T {
      if Some? then value else default
    }
  }
}

=== FILE: profile_controller.dfy ===
/**
 * Profile-picture upload: the data-URL parser and size guard of `saveProfileImage`,
 * the public path it builds, the login check in front of the upload handler, and
 * the handler's input checks and updates. Base64 decoding is the `decode`
 * parameter, `Date.now()` the `now` parameter, and the file write is returned as
 * a value instead of performed.
 */
module ProfileController {
  import opened Options
  import opened JsText
  import opened Users

  const UploadsUrlPrefix := "/uploads/profile-pictures/"
  const DefaultProfile := "/img/profile-placeholder.svg"

  /** 5 MiB: the largest decoded image accepted. */
  const MaxImageBytes: nat := 5 * 1024 * 1024

  const MsgInvalidFormat := "Invalid image format."
  const MsgTooLarge := "Image is too large. Please upload a file under 5MB."
  const MsgNotLoggedIn := "You must be logged in to upload a profile picture."
  const MsgNoImage := "No image provided."
  const MsgUserNotFound := "User not found."

  // ---------------------------------------------------------------------------
  // The data URL `data:image/<subtype>;base64,<payload>`
  // ---------------------------------------------------------------------------

  const SchemePrefix := "data:image/"
  const Base64Marker := ";base64,"

  /** The regular-expression class `[\w.+-]` (no Unicode flag, so `\w` is ASCII). */
  predicate SubtypeChar(c: char) {
    || 'A' <= c <= 'Z' || 'a' <= c <= 'z' || '0' <= c <= '9'
    || c == '_' || c == '.' || c == '+' || c == '-'
  }

  /** The characters `.` does not match without the `s` flag. */
  predicate LineTerminator(c: char) {
    c == '\n' || c == '\r' || c == '\U{2028}' || c == '\U{2029}'
  }

  /** The two capture groups: the media subtype (after `image/`) and the base64 payload. */
  datatype DataUrl = DataUrl(subtype: string, payload: string)

  /** What `^data:(image\/[\w.+-]+);base64,(.+)$` demands of its captures. */
  predicate WellFormed(d: DataUrl) {
    && |d.subtype| >= 1
    && (forall i :: 0 <= i < |d.subtype| ==> SubtypeChar(d.subtype[i]))
    && |d.payload| >= 1
    && (forall i :: 0 <= i < |d.payload| ==> !LineTerminator(d.payload[i]))
  }

  /** The text a data URL is written as. */
  function Format(d: DataUrl): string {
    SchemePrefix + d.subtype + Base64Marker + d.payload
  }

  /** The captured media type, `image/<subtype>`. */
  function MimeType(d: DataUrl): string {
    "image/" + d.subtype
  }

  /** The length of the longest prefix of `s` made of subtype characters (the greedy `+`). */
  function SubtypeRun(s: string): (n: nat)
    ensures n <= |s|
    ensures forall i :: 0 <= i < n ==> SubtypeChar(s[i])
    ensures n < |s| ==> !SubtypeChar(s[n])
  {
    if s == [] || !SubtypeChar(s[0]) then 0 else 1 + SubtypeRun(s[1..])
  }

  /** The captures of `<subtype>;base64,<payload>`, the text after `data:image/`. */
  function ParseAfterScheme(rest: string): (r: Option<DataUrl>)
    ensures r.Some? ==> WellFormed(r.value) && r.value.subtype + Base64Marker + r.value.payload == rest
  {
    var n := SubtypeRun(rest);
    if n == 0 || !(Base64Marker <= rest[n..]) then None
    else
      var payload := rest[n + |Base64Marker|..];
      if |payload| == 0 || exists i :: 0 <= i < |payload| && LineTerminator(payload[i]) then None
      else
        assert rest == rest[..n] + rest[n..];
        assert rest[n..] == Base64Marker + payload;
        Some(DataUrl(rest[..n], payload))
  }

  /** `imageData.match(...)`: the two captures, or None when the text does not match. */
  function ParseDataUrl(s: string): (r: Option<DataUrl>)
    ensures r.Some? ==> WellFormed(r.value) && Format(r.value) == s
  {
    if !(SchemePrefix <= s) then None
    else
      var r := ParseAfterScheme(s[|SchemePrefix|..]);
      assert r.Some? ==> SchemePrefix + (r.value.subtype + Base64Marker + r.value.payload) == s;
      r
  }

  /** Every text of the accepted shape is parsed back into exactly its captures. */
  lemma ParseFormat(d: DataUrl)
    requires WellFormed(d)
    ensures ParseDataUrl(Format(d)) == Some(d)
  {
    var s := Format(d);
    assert s[..|SchemePrefix|] == SchemePrefix;
    var rest := s[|SchemePrefix|..];
    assert rest == d.subtype + Base64Marker + d.payload;
    SubtypeRunStops(d.subtype, Base64Marker + d.payload);
    assert rest[|d.subtype|..] == Base64Marker + d.payload;
    assert rest[..|d.subtype|] == d.subtype;
    assert rest[|d.subtype| + |Base64Marker|..] == d.payload;
  }

  /** The greedy run over a run of subtype characters followed by `;` ends exactly at the `;`. */
  lemma {:induction false} SubtypeRunStops(sub: string, tail: string)
    requires forall i :: 0 <= i < |sub| ==> SubtypeChar(sub[i])
    requires |tail| > 0 && !SubtypeChar(tail[0])
    ensures SubtypeRun(sub + tail) == |sub|
    decreases |sub|
  {
    if sub == [] {
      assert sub + tail == tail;
    } else {
      assert (sub + tail)[1..] == sub[1..] + tail;
      SubtypeRunStops(sub[1..], tail);
    }
  }

  /** The parser accepts a text exactly when it is a well-formed data URL, and returns that URL's captures. */
  lemma ParseIffWellFormed(s: string, d: DataUrl)
    ensures ParseDataUrl(s) == Some(d) <==> WellFormed(d) && Format(d) == s
  {
    if WellFormed(d) && Format(d) == s {
      ParseFormat(d);
    }
  }

  // ---------------------------------------------------------------------------
  // saveProfileImage
  // ---------------------------------------------------------------------------

  /** `mimeType.split('/')[1] || 'png'`. */
  function Extension(mimeType: string): string {
    match SplitSecond(mimeType, '/')
    case Some(e) => if e == "" then "png" else e
    case None => "png"
  }

  /** The captured media type always has a non-empty subtype and no second `/`, so the `png` fallback never applies. */
  lemma ExtensionIsSubtype(d: DataUrl)
    requires WellFormed(d)
    ensures Extension(MimeType(d)) == d.subtype
  {
    assert '/' !in d.subtype by {
      forall i | 0 <= i < |d.subtype| ensures d.subtype[i] != '/' {
        assert SubtypeChar(d.subtype[i]);
      }
    }
    SplitSecondOfPair("image", '/', d.subtype);
    assert "image" + ['/'] + d.subtype == MimeType(d);
  }

  /** `${userId}-${Date.now()}.${extension}`. */
  function FileName(userId: string, now: nat, extension: string): string {
    userId + "-" + Decimal(now) + "." + extension
  }

  datatype FileWrite = FileWrite(filename: string, bytes: seq<bv8>)

  /** A saved image's public path and the one write that stored it, or the thrown error's message. */
  datatype SaveResult = Saved(publicPath: string, write: FileWrite) | SaveFailed(message: string)

  /** `saveProfileImage`: parse, size guard, then one write and the public path. */
  function SaveProfileImage(userId: string, imageData: string, decode: string -> seq<bv8>, now: nat): (r: SaveResult)
    ensures ParseDataUrl(imageData).None? ==> r == SaveFailed(MsgInvalidFormat)
    ensures ParseDataUrl(imageData).Some? && |decode(ParseDataUrl(imageData).value.payload)| > MaxImageBytes ==>
      r == SaveFailed(MsgTooLarge)
    ensures r.Saved? <==>
      ParseDataUrl(imageData).Some? && |decode(ParseDataUrl(imageData).value.payload)| <= MaxImageBytes
    ensures r.Saved? ==>
      var d := ParseDataUrl(imageData).value;
      var name := userId + "-" + Decimal(now) + "." + d.subtype;
      && r.write == FileWrite(name, decode(d.payload))
      && r.publicPath == UploadsUrlPrefix + name
  {
    match ParseDataUrl(imageData)
    case None => SaveFailed(MsgInvalidFormat)
    case Some(d) =>
      var buffer := decode(d.payload);
      if |buffer| > MaxImageBytes then SaveFailed(MsgTooLarge)
      else
        ExtensionIsSubtype(d);
        var filename := FileName(userId, now, Extension(MimeType(d)));
        Saved(UploadsUrlPrefix + filename, FileWrite(filename, buffer))
  }

  /** The size ceiling is inclusive: exactly 5 MiB is stored, one byte more is refused. */
  lemma SizeBoundary(userId: string, d: DataUrl, decode: string -> seq<bv8>, now: nat)
    requires WellFormed(d)
    ensures |decode(d.payload)| == MaxImageBytes ==> SaveProfileImage(userId, Format(d), decode, now).Saved?
    ensures |decode(d.payload)| == MaxImageBytes + 1 ==>
      SaveProfileImage(userId, Format(d), decode, now) == SaveFailed(MsgTooLarge)
  {
    ParseFormat(d);
  }

  /**
   * For one user the file name determines the instant and the extension, so two
   * saves at different instants never write the same file.
   */
  lemma FileNameDeterminesInstant(userId: string, now1: nat, ext1: string, now2: nat, ext2: string)
    ensures FileName(userId, now1, ext1) == FileName(userId, now2, ext2) ==> now1 == now2 && ext1 == ext2
  {
    if FileName(userId, now1, ext1) == FileName(userId, now2, ext2) {
      var a := Decimal(now1);
      var b := Decimal(now2);
      var p := |userId| + 1;
      var x := a + "." + ext1;
      var y := b + "." + ext2;
      assert x == FileName(userId, now1, ext1)[p..];
      assert y == FileName(userId, now2, ext2)[p..];
      FirstDotAfterDigits(a, ext1);
      FirstDotAfterDigits(b, ext2);
      assert a == x[..|a|] && b == y[..|b|];
      DecimalInjective(now1, now2);
      assert ext1 == x[|a| + 1..] && ext2 == y[|b| + 1..];
    }
  }

  /** In `digits + "." + ext` the first `.` sits right after the digits. */
  lemma FirstDotAfterDigits(digits: string, ext: string)
    requires AllDigits(digits)
    ensures IndexOf(digits + "." + ext, '.') == Some(|digits|)
  {
    var s := digits + "." + ext;
    assert s[|digits|] == '.';
    assert s[..|digits|] == digits;
    assert '.' !in digits by {
      forall i | 0 <= i < |digits| ensures digits[i] != '.' {
        assert IsDigit(digits[i]);
      }
    }
  }

  // ---------------------------------------------------------------------------
  // The upload route
  // ---------------------------------------------------------------------------

  /** The JSON reply of the upload route. */
  datatype Response = ImageUrl(url: string) | JsonError(status: nat, error: string)

  /** `ensureAuthenticated`: None stands for `next()`. */
  function EnsureAuthenticated(session: Session): (r: Option<Response>)
    ensures r.None? <==> session.user.Some?
    ensures r.Some? ==> r.value == JsonError(401, MsgNotLoggedIn)
  {
    if session.user.None? then Some(JsonError(401, MsgNotLoggedIn)) else None
  }

  /** The reply, the session and the user collection afterwards, and the file written, if any. */
  datatype UploadResult = UploadResult(response: Response, session: Session, store: Store, written: Option<FileWrite>)

  /**
   * The upload route: login check, then `imageData` must be a non-empty string,
   * then the session's user must exist, then the image is saved and recorded on
   * both the stored user and the session. `imageData` is None when absent or not a string.
   */
  function UploadProfilePicture(session: Session, imageData: Option<string>, store: Store,
                                decode: string -> seq<bv8>, now: nat): (r: UploadResult)
    ensures session.user.None? ==> r == UploadResult(JsonError(401, MsgNotLoggedIn), session, store, None)
    ensures session.user.Some? && !Truthy(imageData) ==>
      r == UploadResult(JsonError(400, MsgNoImage), session, store, None)
    ensures session.user.Some? && Truthy(imageData) ==>
      match FindById(store, session.user.value.id)
      case None => r == UploadResult(JsonError(404, MsgUserNotFound), session, store, None)
      case Some(i) =>
        match SaveProfileImage(store[i].id, imageData.value, decode, now)
        case SaveFailed(m) => r == UploadResult(JsonError(400, m), session, store, None)
        case Saved(p, _) => r.response == ImageUrl(p)
    ensures r.response.JsonError? ==> r.session == session && r.store == store && r.written == None
    ensures r.response.ImageUrl? ==>
      && session.user.Some? && Truthy(imageData)
      && FindById(store, session.user.value.id).Some?
      && var i := FindById(store, session.user.value.id).value;
      && var saved := SaveProfileImage(store[i].id, imageData.value, decode, now);
      && saved.Saved?
      && r.response.url == saved.publicPath
      && r.written == Some(saved.write)
      && r.store == store[i := store[i].(profileImage := Some(saved.publicPath))]
      && r.session == session.(user := Some(session.user.value.(profileImage := Some(saved.publicPath))))
  {
    match EnsureAuthenticated(session)
    case Some(denied) => UploadResult(denied, session, store, None)
    case None =>
      if !Truthy(imageData) then UploadResult(JsonError(400, MsgNoImage), session, store, None)
      else match FindById(store, session.user.value.id)
        case None => UploadResult(JsonError(404, MsgUserNotFound), session, store, None)
        case Some(i) =>
          match SaveProfileImage(store[i].id, imageData.value, decode, now)
          case SaveFailed(msg) => UploadResult(JsonError(400, msg), session, store, None)
          case Saved(path, write) =>
            var user := store[i].(profileImage := Some(path));
            var sessionUser := session.user.value.(profileImage := Some(path));
            UploadResult(ImageUrl(path), session.(user := Some(sessionUser)), store[i := user], Some(write))
  }

  /** A text that is not an image data URL, or decodes to more than 5 MiB, is answered with 400 and writes nothing. */
  lemma RejectedImageWritesNothing(session: Session, imageData: string, store: Store,
                                   decode: string -> seq<bv8>, now: nat)
    requires session.user.Some? && imageData != ""
    requires FindById(store, session.user.value.id).Some?
    requires ParseDataUrl(imageData).None? || |decode(ParseDataUrl(imageData).value.payload)| > MaxImageBytes
    ensures var r := UploadProfilePicture(session, Some(imageData), store, decode, now);
      && r.written == None && r.store == store && r.session == session
      && r.response.JsonError? && r.response.status == 400
      && (ParseDataUrl(imageData).None? ==> r.response.error == MsgInvalidFormat)
      && (ParseDataUrl(imageData).Some? ==> r.response.error == MsgTooLarge)
  {
  }
}

=== FILE: users.dfy ===
/**
 * The user collection and the per-browser session, as the controllers see them.
 * A lookup returns the first matching record, as `findOne`/`findById` return one match.
 */
module Users {
  import opened Options

  datatype UserRecord = UserRecord(
    id: string,
    username: string,
    email: string,
    passwordHash: string,
    profileImage: Option<string>)

  type Store = seq<UserRecord>

  /** The minimal user info kept in the session. */
  datatype SessionUser = SessionUser(id: string, username: string, email: string, profileImage: Option<string>)

  /** `req.session`: the logged-in user, if any, and the page to return to after login. */
  datatype Session = Session(user: Option<SessionUser>, redirectTo: Option<string>)

  function SessionUserOf(u: UserRecord): SessionUser {
    SessionUser(u.id, u.username, u.email, u.profileImage)
  }

  /** The index of the first record satisfying `matches`, if any. */
  function FindFirst(store: Store, matches: UserRecord -> bool): (r: Option<nat>)
    ensures r.None? <==> forall j :: 0 <= j < |store| ==> !matches(store[j])
    ensures r.Some? ==> r.value < |store| && matches(store[r.value])
    ensures r.Some? ==> forall j :: 0 <= j < r.value ==> !matches(store[j])
  {
    if store == [] then None
    else if matches(store[0]) then Some(0)
    else match FindFirst(store[1..], matches)
      case None => None
      case Some(k) => Some(k + 1)
  }

  /** `User.findOne({ email })`. */
  function FindByEmail(store: Store, email: string): Option<nat> {
    FindFirst(store, (u: UserRecord) => u.email == email)
  }

  /** `User.findById(id)`. */
  function FindById(store: Store, id: string): Option<nat> {
    FindFirst(store, (u: UserRecord) => u.id == id)
  }

  /** A record appended under an email nobody holds is the one an email lookup then finds. */
  lemma FindAppended(store: Store, u: UserRecord)
    requires FindByEmail(store, u.email).None?
    ensures FindByEmail(store + [u], u.email) == Some(|store|)
  {
    var s := store + [u];
    var matches := (v: UserRecord) => v.email == u.email;
    assert matches(s[|store|]);
    assert FindFirst(s, matches).Some?;
  }
}
